=== FILE: README.md ===
# rspm interactive session, modelled in Dafny

This project models the interactive "top" session of rspm, a terminal
process manager (`src/top.rs`). The session holds the process list as
tab-separated text rows (`PID\tUID\tCPU\tMEM\tSTART\tNAME`), kept sorted by
PID. It has a search mode with a query and a filtered copy of the list. It
has a list cursor in which row 0 is the column header and rows `1..len`
are the visible processes. A kill goes through two steps: the cursor row's
PID is captured, then a y/n answer confirms or cancels. An exit flag ends
the session.

Each operation of `App` is a pure function from one immutable `Top.App`
state to the next:

- `options.dfy`: `Option`.
- `text.dfy`: the string primitives the source calls. These are
  `char::is_whitespace`, `str::contains`,
  `split('\t').next()`, `split_whitespace().next()` and `String::pop`.
  For `str::to_lowercase` there is an ASCII-only stand-in.
- `rows.dfy`: `u32` parsing. It also defines the two ways a row yields a
  PID: the sort key and the kill target.
- `pidsort.dfy`: the stable `sort_by` on the PID key, written as an
  insertion sort.
- `rowfilter.dfy`: the case-insensitive search filter.
- `cursor.dfy`: circular cursor arithmetic.
- `top.dfy`: the `App` state, each transition, `handle_key_events` and the
  invariant `Valid`.
- `properties.dfy`: properties that relate several transitions or hold for
  every key press.

The two operating-system calls are parameters. Every transition that would
call `get_processes()` takes the fresh snapshot as an argument. A
transition that would call `kill_process_by_pid` returns a `Top.Step` whose
`kill` field is the PID passed to that call. As in the source, its outcome
is ignored.

Behaviours of the code worth noting:

- Outside search mode, `q` sets the exit flag even while a kill
  confirmation is shown (src/top.rs:229). The confirmation does not consume
  every key.
- Entering or leaving search mode selects row 1 even when the visible list
  is empty (src/top.rs:359, 366). So "the cursor is `None` exactly when the
  list is empty" holds in one direction only: a non-empty list always has a
  cursor. `Top.Valid` states what holds.
- `initiate_kill` itself does not check whether a confirmation is already
  pending. The key dispatcher guards every call to it.
- The sort key and the kill target are read differently from the same row.
  The sort key is the leading tab field parsed as `u32`, falling back to 0.
  The kill target is the first whitespace-separated word parsed as `u32`;
  when that parse fails, no confirmation starts. The two readings agree on
  rows in the lister's format (`Rows.FormattedRowPid`) and can differ on
  other rows (`Rows.IndentedRowReadings`).

## Model

| member | source | states |
|---|---|---|
| Top.Refresh | src/top.rs:55-86 | The new list is the snapshot sorted ascending by PID key: a permutation of the snapshot that is stable for equal keys. In search mode the filtered list is recomputed from the new list. The cursor is row 1 if the visible list is non-empty, else none. The mode, query, confirmation and exit flag are untouched. |
| Top.Init | src/top.rs:25-44 | A new session is valid, not exiting, not searching and not confirming. Its list is the first snapshot stably re-sorted by PID: sorted, a permutation, and rows with equal keys keep their snapshot order. Its cursor is row 1 exactly when that snapshot is non-empty. |
| Top.UpdateFiltered | src/top.rs:369-389 | The filtered list is the order-preserving subsequence of the full list whose rows match the query. An empty query gives the whole list. The cursor is reset to row 1 or none. Nothing else changes. |
| Top.NextItem | src/top.rs:270-294 | Only the cursor changes. An empty visible list leaves the state as it is. Otherwise the new cursor lies in `0..len`, and a missing cursor becomes 0. |
| Top.PreviousItem | src/top.rs:296-320 | Only the cursor changes. An empty visible list leaves the state as it is. Otherwise a cursor that was in range or absent lands in `0..len`, and a missing cursor or cursor 0 wraps to `len`. |
| Top.SelectedRow | src/top.rs:323-331 | A row is selected exactly when the cursor is in `1..len`. The selected row is the visible row at index `cursor - 1`, the one below the header. |
| Top.InitiateKill | src/top.rs:322-340 | If the cursor is on a process row whose kill target parses, the confirmation is shown with that PID pending. Otherwise nothing changes. The list, filter, query, cursor and exit flag never change. |
| Top.CancelKill | src/top.rs:350-353 | The confirmation is hidden and no PID is pending. Everything else is unchanged. |
| Top.ConfirmKill | src/top.rs:342-348 | The kill call receives exactly the pending PID, if there is one. The confirmation always ends. The list is refreshed only when a PID was pending; otherwise the view is unchanged. |
| Top.EnterSearchMode | src/top.rs:355-360 | Search mode is on and the query is empty. The filtered list is the filter of the whole list under that empty query. The cursor is row 1. |
| Top.ExitSearchMode | src/top.rs:362-367 | Search mode is off, and the query and filtered list are empty. The visible list is the full list. The cursor is row 1. |
| Top.HandleKey | src/top.rs:182-268 | The exit flag becomes set exactly when `q` is pressed outside search mode, and is never cleared. A kill is issued exactly when y/Y answers a shown confirmation, and it targets the pending PID. |
| Cursor.Forward | src/top.rs:270-294 | With no processes the cursor stays as it is. Otherwise the result is a cursor in `0..len`, and a missing cursor becomes 0. |
| Cursor.Backward | src/top.rs:296-320 | With no processes the cursor stays as it is. Otherwise the result is a cursor, and it is in `0..len` when the input was in range or absent. A missing cursor or cursor 0 wraps to `len`. |
| Cursor.ForwardIsSuccessorModRows | src/top.rs:282-291 | For a cursor in range, one step down adds one modulo `len + 1`. |
| Cursor.BackwardIsPredecessorModRows | src/top.rs:308-317 | For a cursor in range, one step up subtracts one modulo `len + 1`. |
| Cursor.BackwardUndoesForward | src/top.rs:270-320 | For a cursor in range, a step up undoes a step down and a step down undoes a step up. |
| Cursor.ForwardCycle | src/top.rs:270-294 | For a cursor in range over a non-empty list, `len + 1` steps down return it to where it started. |
| Cursor.ForwardFromNone | src/top.rs:290 | With no selection, a step down lands on the header, and `len + 1` steps land on the last process. |
| Text.ContainsIffOccurs | src/top.rs:379 | The substring scan reports a match exactly when the needle occurs at some position of the haystack. |
| Text.LowerIdempotent | src/top.rs:377-378 | Lowercasing an already lowercased string changes nothing. |
| Text.TakeUntil | src/top.rs:58-61 | The leading field is the longest prefix with no separator: it is a prefix, holds no separator, and is followed by a separator or by the end of the row. |
| Text.FirstWord | src/top.rs:332 | The first word is a non-empty run of the row with no whitespace. Only whitespace comes before it, and whitespace or the end of the row comes after it. There is no word exactly when the row is all whitespace. |
| Text.DropLast | src/top.rs:204 | Popping the query removes its last character if it has one. An empty query stays empty. |
| Rows.PidKey | src/top.rs:57-70 | The sort key is the `u32` value of the row's leading tab field, read as `Rows.ParseU32` does (see `Text.TakeUntil` for the field), and 0 when that parse fails. |
| Rows.KillTarget | src/top.rs:332-333 | An all-whitespace row has no kill target. A kill target, when present, is the `u32` parse of a word preceded only by whitespace and followed by whitespace or the end (see `Text.FirstWord`). |
| Rows.ParseU32 | src/top.rs:62 | After at most one leading `+` is dropped, the parse succeeds exactly when what is left is a non-empty string of decimal digits whose value is below 2^32. It then returns that value. |
| Rows.ParseShowRoundTrip | src/top.rs:62 | Every `u32` PID parses back from its decimal rendering. |
| Rows.ParsePlusSign | src/top.rs:62 | A leading `+` before the digits is accepted and ignored. |
| Rows.FormattedRowPid | src/top.rs:58-63 | On a row `PID\t...`, both the sort key and the kill target are that PID. |
| Rows.IndentedRowReadings | src/top.rs:330-336 | On a row with leading blanks, the sort key falls back to 0 while the kill target still finds the PID. |
| PidSort.SortByPid | src/top.rs:57-71 | The sorted list is ascending by PID key and is a permutation of the snapshot. For every key, the rows carrying it keep their relative order. |
| PidSort.SortByFacts | src/top.rs:57-71 | Insertion sort produces a list sorted by the key that is a permutation of its input. |
| PidSort.SortByStable | src/top.rs:57-71 | Insertion sort is stable: for each key, the subsequence of elements with that key is unchanged. |
| PidSort.StableSortOfDistinctIsStrict | src/top.rs:57-71 | If the input has no repeated key, a stable sorted permutation of it is strictly ascending. |
| RowFilter.FilterRows | src/top.rs:370-383 | The empty-query shortcut and the general filter give the same list. |
| RowFilter.EmptyQueryKeepsAll | src/top.rs:370-371 | The empty query matches every row. |
| RowFilter.MatchesMeaning | src/top.rs:376-380 | A row matches exactly when the lowercased query is a substring of the lowercased row. |
| RowFilter.FilterKeepsSorted | src/top.rs:373-382 | Filtering a list sorted by PID leaves it sorted by PID. |
| RowFilter.FilterIsSubsequence | src/top.rs:373-382 | The filtered list is an order-preserving subsequence of the full list. |
| RowFilter.FilterCounts | src/top.rs:373-382 | A row occurs in the filtered list as often as in the full list if it matches, and never if it does not. |
| RowFilter.FilterMembership | src/top.rs:373-382 | A row is in the filtered list exactly when it is in the full list and matches the query. |
| RowFilter.FilterIgnoresQueryCase | src/top.rs:377 | Changing the query's letter case does not change the filtered list. |
| TopProperties.RefreshDistinctPids | src/top.rs:55-71 | A snapshot without repeated PIDs is listed in strictly ascending PID order after a refresh. |
| TopProperties.VisibleSorted | src/top.rs:55-86 | In every valid state, the visible list is sorted by PID, filtered or not. |
| TopProperties.RefreshVisibleSorted | src/top.rs:55-86 | After a refresh from any snapshot, the visible list is sorted by PID, in search mode as well. |
| TopProperties.RefreshValid | src/top.rs:55-86 | A refresh keeps the session invariant, for any snapshot. |
| TopProperties.HandleKeyValid | src/top.rs:182-268 | Every key press keeps the session invariant, for any snapshot. |
| TopProperties.ReachableValid | src/top.rs:25-44 | Every state reached from a new session by any sequence of key presses satisfies the invariant. |
| TopProperties.ConfirmationConsumesKeys | src/top.rs:182-268 | While the confirmation is shown, every key other than y/Y/n/N/Esc leaves the state unchanged and issues no kill. The exception is `q` outside search mode, which only sets the exit flag. |
| TopProperties.AnswerEndsConfirmation | src/top.rs:190-214 | An answer to a shown confirmation always clears it and keeps the search mode and query. A cancelling answer also leaves the list, filter and cursor unchanged. |
| TopProperties.OnlyEnterStartsConfirmation | src/top.rs:240-244 | Outside a confirmation, only Enter can start one. The pending PID is then the kill target of the selected row. |
| TopProperties.InitiateThenCancel | src/top.rs:322-353 | Starting a kill and then cancelling it gives back the original state. |
| TopProperties.InitiateOnHeaderIsNoop | src/top.rs:322-340 | With the cursor on the header or nowhere, starting a kill changes nothing. |
| TopProperties.EnterSearchModeIdempotent | src/top.rs:355-360 | Entering search mode twice equals entering it once, and the whole list is then visible. |
| TopProperties.ExitSearchModeIdempotent | src/top.rs:362-367 | Leaving search mode twice equals leaving it once. |
| TopProperties.ExitUndoesEnter | src/top.rs:355-367 | From a valid normal-mode state, entering and then leaving search mode changes only the cursor, which becomes row 1. |
| TopProperties.TypingExtendsQuery | src/top.rs:196-201 | In search mode with no confirmation, any character is appended to the query, including q, y and n. The visible rows become exactly the matching rows, as a subsequence. The cursor is reset. |
| TopProperties.BackspaceShortensQuery | src/top.rs:202-207 | In search mode with no confirmation, Backspace drops the query's last character and refilters. The cursor is reset from the new list, and nothing else changes. |
| TopProperties.VisibleRowsContainQuery | src/top.rs:369-389 | In a valid search-mode state, every visible row contains the query, ignoring case. |
| TopProperties.QuitKey | src/top.rs:229 | Outside search mode, `q` sets the exit flag and changes nothing else. |
| TopProperties.SearchKeyEntersSearchMode | src/top.rs:245-249 | Outside search mode with no confirmation, `s` or `S` enters search mode and nothing is killed. |
| TopProperties.RefreshKeyRefreshes | src/top.rs:260-264 | Outside search mode with no confirmation, `r` or `R` refreshes from the snapshot and nothing is killed. |
| TopProperties.EscLeavesSearchMode | src/top.rs:208-214 | In search mode with no confirmation, Esc leaves search mode. |
| TopProperties.EnterInitiatesKill | src/top.rs:185-189 | With no confirmation, Enter starts a kill of the selected row, in either mode. |
| TopProperties.ConfirmKeyConfirms | src/top.rs:190-192 | While a confirmation is shown, `y` or `Y` confirms it in either mode (also src/top.rs:250-254): the pending PID is killed and the list is refreshed. |
| TopProperties.UpMovesUp | src/top.rs:215-219 | With no confirmation, Up moves the cursor up in either mode (also src/top.rs:230-234), for every state, valid or not. |
| TopProperties.DownMovesDown | src/top.rs:220-224 | With no confirmation, Down moves the cursor down in either mode (also src/top.rs:235-239), for every state, valid or not. |
| TopProperties.UnboundKeysIgnored | src/top.rs:225-265 | With no confirmation, unbound keys change nothing and kill nothing. These are unrecognised keys in either mode, and outside search mode every character except `q`, `s`, `S`, `r` and `R`, including `y`, `Y`, `n` and `N`. |
| TopProperties.NormalModeIgnoredKeys | src/top.rs:255-266 | Outside search mode with no confirmation, Esc, Backspace and other keys change nothing and kill nothing. |
| TopProperties.ExitIsFinal | src/top.rs:182-268 | Once the exit flag is set, no later key press clears it. |
| TopProperties.DownCycle | src/top.rs:220-224 | With no confirmation and a non-empty visible list, `len + 1` Down presses return the session to the state it started in. |
| TopProperties.UpUndoesDown | src/top.rs:215-224 | With no confirmation and a non-empty visible list, Up undoes Down and Down undoes Up. |
| TopProperties.RefreshOrdersByPid | src/top.rs:55-71 | The snapshot `10\ta`, `2\tb` is listed as `2\tb`, then `10\ta`. |
| TopProperties.FilterGitExample | src/top.rs:369-389 | The query `git` keeps `gitd` and `legit` and drops `init`. |

## Left out

- `run`, `handle_events` and `top` (src/top.rs:47-53, 170-180, 392-398) are left out. They are terminal set-up and restore, the 100 ms event poll, and the filter that keeps only key-press events. The model starts at `handle_key_events`, one key at a time (`TopProperties.Replay`).
- `draw` (src/top.rs:88-168) is left out because it only builds and styles widgets. Any adjustment the list widget makes to the selection while drawing is not modelled either. Confirmation banner rows shift what the widget displays but not the cursor the controller uses.
- `get_processes` is not part of this model. Its source is not available, so the snapshot is a parameter.
- `kill_process_by_pid` (src/kill.rs) is left out. Only the PID handed to it is modelled, because the session ignores its result.
- src/pause.rs, src/show.rs and src/main.rs are left out. They are one-shot command-line subcommands with no session state.
- Text.LowerChar: folds only the ASCII letters A-Z. Rust's `to_lowercase` applies full Unicode case mapping, including multi-character expansions. Case-insensitive matching of non-ASCII letters is not modelled.
- The cursor is an unbounded `nat` rather than `usize`. No overflow is modelled, because the cursor never exceeds `max(1, len)` (`Top.Valid`).
- Key modifiers are not modelled. The source matches on the key code alone.

=== FILE: cursor.dfy ===
/**
 * The list cursor of `next_item` / `previous_item`. With `len` visible
 * processes the list shows `len + 1` rows: row 0 is the column header and
 * rows `1..len` are the processes. The cursor moves circularly over them.
 */
module Cursor {
  import opened Options

  /** The cursor after one step down (`next_item`). */
  function Forward(c: Option<nat>, len: nat): (r: Option<nat>)
    ensures len == 0 ==> r == c
    ensures len > 0 ==> r.Some? && r.value <= len
    ensures len > 0 && c.None? ==> r == Some(0)
  {
    var total := len + 1;
    if total <= 1 then c
    else match c
      case Some(i) => if i + 1 >= total then Some(0) else Some(i + 1)
      case None => Some(0)
  }

  /** The cursor after one step up (`previous_item`). */
  function Backward(c: Option<nat>, len: nat): (r: Option<nat>)
    ensures len == 0 ==> r == c
    ensures len > 0 ==> r.Some?
    ensures len > 0 && (c.None? || c.value <= len) ==> r.value <= len
    ensures len > 0 && (c.None? || c == Some(0)) ==> r == Some(len)
  {
    var total := len + 1;
    if total <= 1 then c
    else match c
      case Some(i) => if i == 0 then Some(total - 1) else Some(i - 1)
      case None => Some(total - 1)
  }

  lemma MulMagnitude(k: int, m: int)
    requires m > 0
    ensures k >= 1 ==> k * m >= m
    ensures k <= -1 ==> k * m <= -m
  {
  }

  /** A value below the modulus is its own remainder, also after adding the modulus once. */
  lemma ModBelow(a: int, m: int)
    requires 0 <= a < m
    ensures a % m == a
    ensures (a + m) % m == a
  {
    var q, r := (a + m) / m, (a + m) % m;
    assert (q - 1) * m == a - r;
    MulMagnitude(q - 1, m);
    var q0, r0 := a / m, a % m;
    assert q0 * m == a - r0;
    MulMagnitude(q0, m);
  }

  /** Within range, a step down is addition of one modulo the number of rows. */
  lemma ForwardIsSuccessorModRows(i: nat, len: nat)
    requires 0 < len && i <= len
    ensures Forward(Some(i), len) == Some((i + 1) % (len + 1))
  {
    if i == len {
      ModBelow(0, len + 1);
    } else {
      ModBelow(i + 1, len + 1);
    }
  }

  /** Within range, a step up is subtraction of one modulo the number of rows. */
  lemma BackwardIsPredecessorModRows(i: nat, len: nat)
    requires 0 < len && i <= len
    ensures Backward(Some(i), len) == Some((i + len) % (len + 1))
  {
    if i == 0 {
      ModBelow(len, len + 1);
    } else {
      ModBelow(i - 1, len + 1);
      assert i + len == (i - 1) + (len + 1);
    }
  }

  /** A step up undoes a step down and vice versa, for any cursor in range. */
  lemma BackwardUndoesForward(i: nat, len: nat)
    requires 0 < len && i <= len
    ensures Backward(Forward(Some(i), len), len) == Some(i)
    ensures Forward(Backward(Some(i), len), len) == Some(i)
  {
  }

  /** The cursor after `n` steps down. */
  function ForwardN(c: Option<nat>, len: nat, n: nat): (r: Option<nat>)
    ensures len == 0 ==> r == c
    ensures len > 0 && n > 0 ==> r.Some? && r.value <= len
  {
    if n == 0 then c else Forward(ForwardN(c, len, n - 1), len)
  }

  lemma {:induction false} ForwardNCompose(c: Option<nat>, len: nat, a: nat, b: nat)
    ensures ForwardN(c, len, a + b) == ForwardN(ForwardN(c, len, a), len, b)
    decreases b
  {
    if b > 0 {
      ForwardNCompose(c, len, a, b - 1);
    }
  }

  lemma {:induction false} ForwardNClimbs(i: nat, len: nat, n: nat)
    requires i + n <= len
    ensures ForwardN(Some(i), len, n) == Some(i + n)
  {
    if n > 0 {
      ForwardNClimbs(i, len, n - 1);
    }
  }

  /**
   * Going down once per row (`len + 1` times) over a non-empty list brings
   * the cursor back to where it started.
   */
  lemma ForwardCycle(i: nat, len: nat)
    requires 0 < len && i <= len
    ensures ForwardN(Some(i), len, len + 1) == Some(i)
  {
    ForwardNClimbs(i, len, len - i);
    ForwardNCompose(Some(i), len, len - i, 1);
    ForwardNClimbs(0, len, i);
    ForwardNCompose(Some(i), len, len - i + 1, i);
  }

  /** From no selection, the first step down lands on the header and `len` more on the last process. */
  lemma ForwardFromNone(len: nat)
    requires 0 < len
    ensures Forward(None, len) == Some(0)
    ensures ForwardN(None, len, len + 1) == Some(len)
  {
    ForwardNCompose(None, len, 1, len);
    ForwardNClimbs(0, len, len);
  }
}

=== FILE: options.dfy ===
/** Rust's `Option`, used for the list cursor, the pending PID and parse results. */
module Options {

  datatype Option<+T> = None | Some(value: T) {

    /** The wrapped value, or `default` when there is none (Rust's `unwrap_or`). */
    function GetOr(default: T): T {
      match this
      case Some(v) => v
      case None => default
    }
  }
}

=== FILE: pidsort.dfy ===
/**
 * `processes.sort_by(|a, b| pid_a.cmp(&pid_b))`: Rust's `sort_by` is a
 * stable sort. It is modelled as an insertion sort over an arbitrary key,
 * instantiated with the PID key of a row.
 */
module PidSort {
  import opened Rows

  /** Elements in ascending order of `key`. */
  predicate SortedBy<T>(s: seq<T>, key: T -> nat) {
    forall i, j :: 0 <= i < j < |s| ==> key(s[i]) <= key(s[j])
  }

  /** The elements of `s` whose key is `k`, in their order in `s`. */
  function Run<T>(s: seq<T>, key: T -> nat, k: nat): seq<T> {
    if |s| == 0 then []
    else (if key(s[0]) == k then [s[0]] else []) + Run(s[1..], key, k)
  }

  /** Places `x` before the first element whose key is not smaller than its own. */
  function Insert<T>(x: T, s: seq<T>, key: T -> nat): seq<T> {
    if |s| == 0 then [x]
    else if key(x) <= key(s[0]) then [x] + s
    else [s[0]] + Insert(x, s[1..], key)
  }

  function SortBy<T>(s: seq<T>, key: T -> nat): seq<T> {
    if |s| == 0 then [] else Insert(s[0], SortBy(s[1..], key), key)
  }

  /** Every element of `s` has a key of at least `b`. */
  predicate KeysAtLeast<T>(s: seq<T>, key: T -> nat, b: nat) {
    forall i :: 0 <= i < |s| ==> b <= key(s[i])
  }

  lemma {:induction false} InsertKeepsBound<T>(x: T, s: seq<T>, key: T -> nat, b: nat)
    requires KeysAtLeast(s, key, b) && b <= key(x)
    ensures KeysAtLeast(Insert(x, s, key), key, b)
  {
    if |s| > 0 && key(x) > key(s[0]) {
      InsertKeepsBound(x, s[1..], key, b);
    }
  }

  lemma {:induction false} InsertCounts<T>(x: T, s: seq<T>, key: T -> nat)
    ensures multiset(Insert(x, s, key)) == multiset(s) + multiset{x}
  {
    if |s| > 0 && key(x) > key(s[0]) {
      InsertCounts(x, s[1..], key);
      assert s == [s[0]] + s[1..];
    }
  }

  /** A sorted list whose head does not exceed any key of its tail. */
  lemma ConsSorted<T>(h: T, t: seq<T>, key: T -> nat)
    requires SortedBy(t, key) && KeysAtLeast(t, key, key(h))
    ensures SortedBy([h] + t, key)
  {
    var r := [h] + t;
    forall i, j | 0 <= i < j < |r| ensures key(r[i]) <= key(r[j]) {
      assert r[j] == t[j - 1];
      if i > 0 {
        assert r[i] == t[i - 1];
      }
    }
  }

  lemma {:induction false} InsertSorted<T>(x: T, s: seq<T>, key: T -> nat)
    requires SortedBy(s, key)
    ensures SortedBy(Insert(x, s, key), key)
  {
    if |s| == 0 {
    } else if key(x) <= key(s[0]) {
      ConsSorted(x, s, key);
    } else {
      InsertSorted(x, s[1..], key);
      InsertKeepsBound(x, s[1..], key, key(s[0]));
      ConsSorted(s[0], Insert(x, s[1..], key), key);
    }
  }

  /** The sorted list is in ascending key order and is a permutation of its input. */
  lemma {:induction false} SortByFacts<T>(s: seq<T>, key: T -> nat)
    ensures SortedBy(SortBy(s, key), key)
    ensures multiset(SortBy(s, key)) == multiset(s)
  {
    if |s| > 0 {
      SortByFacts(s[1..], key);
      InsertSorted(s[0], SortBy(s[1..], key), key);
      InsertCounts(s[0], SortBy(s[1..], key), key);
      assert s == [s[0]] + s[1..];
    }
  }

  lemma {:induction false} RunAppend<T>(a: seq<T>, b: seq<T>, key: T -> nat, k: nat)
    ensures Run(a + b, key, k) == Run(a, key, k) + Run(b, key, k)
  {
    if |a| > 0 {
      assert (a + b)[1..] == a[1..] + b;
      RunAppend(a[1..], b, key, k);
    } else {
      assert a + b == b;
    }
  }

  lemma {:induction false} InsertStable<T>(x: T, s: seq<T>, key: T -> nat, k: nat)
    ensures Run(Insert(x, s, key), key, k) == Run([x], key, k) + Run(s, key, k)
  {
    if |s| == 0 {
    } else if key(x) <= key(s[0]) {
      RunAppend([x], s, key, k);
    } else {
      var rest := Insert(x, s[1..], key);
      assert Insert(x, s, key) == [s[0]] + rest;
      InsertStable(x, s[1..], key, k);
      assert Run(rest, key, k) == Run([x], key, k) + Run(s[1..], key, k);
      RunAppend([s[0]], rest, key, k);
      assert s == [s[0]] + s[1..];
      RunAppend([s[0]], s[1..], key, k);
      assert Run([x], key, k) == (if key(x) == k then [x] else []);
      assert Run([s[0]], key, k) == (if key(s[0]) == k then [s[0]] else []);
      assert key(s[0]) == k ==> key(x) != k;
    }
  }

  /**
   * Stability: for every key, the elements carrying that key appear in the
   * sorted list in the same relative order as in the input.
   */
  lemma {:induction false} SortByStable<T>(s: seq<T>, key: T -> nat, k: nat)
    ensures Run(SortBy(s, key), key, k) == Run(s, key, k)
  {
    if |s| > 0 {
      SortByStable(s[1..], key, k);
      InsertStable(s[0], SortBy(s[1..], key), key, k);
      assert s == [s[0]] + s[1..];
      RunAppend([s[0]], s[1..], key, k);
    }
  }

  /** No two elements share a key. */
  predicate DistinctKeys<T>(s: seq<T>, key: T -> nat) {
    forall i, j :: 0 <= i < j < |s| ==> key(s[i]) != key(s[j])
  }

  /** Strictly ascending keys. */
  predicate StrictlySortedBy<T>(s: seq<T>, key: T -> nat) {
    forall i, j :: 0 <= i < j < |s| ==> key(s[i]) < key(s[j])
  }

  lemma {:induction false} RunHasElement<T>(s: seq<T>, key: T -> nat, j: nat)
    requires j < |s|
    ensures |Run(s, key, key(s[j]))| >= 1
  {
    if j > 0 {
      RunHasElement(s[1..], key, j - 1);
    }
  }

  lemma {:induction false} RunHasTwo<T>(s: seq<T>, key: T -> nat, i: nat, j: nat)
    requires i < j < |s| && key(s[i]) == key(s[j])
    ensures |Run(s, key, key(s[i]))| >= 2
  {
    if i > 0 {
      RunHasTwo(s[1..], key, i - 1, j - 1);
    } else {
      RunHasElement(s[1..], key, j - 1);
    }
  }

  lemma {:induction false} RunEmpty<T>(s: seq<T>, key: T -> nat, k: nat)
    requires forall i :: 0 <= i < |s| ==> key(s[i]) != k
    ensures Run(s, key, k) == []
  {
    if |s| > 0 {
      RunEmpty(s[1..], key, k);
    }
  }

  lemma {:induction false} DistinctRunShort<T>(s: seq<T>, key: T -> nat, k: nat)
    requires DistinctKeys(s, key)
    ensures |Run(s, key, k)| <= 1
  {
    if |s| > 0 {
      if key(s[0]) == k {
        RunEmpty(s[1..], key, k);
      } else {
        DistinctRunShort(s[1..], key, k);
      }
    }
  }

  /** A stable sort of a list without repeated keys is strictly ascending. */
  lemma StableSortOfDistinctIsStrict<T>(s: seq<T>, r: seq<T>, key: T -> nat)
    requires DistinctKeys(s, key) && SortedBy(r, key)
    requires forall k :: Run(r, key, k) == Run(s, key, k)
    ensures StrictlySortedBy(r, key)
  {
    forall i, j | 0 <= i < j < |r| ensures key(r[i]) < key(r[j]) {
      if key(r[i]) == key(r[j]) {
        RunHasTwo(r, key, i, j);
        DistinctRunShort(s, key, key(r[i]));
      }
    }
  }

  /** The key the process list is sorted by, as a function value. */
  function PidOrder(row: Row): nat {
    PidKey(row)
  }

  /**
   * The process list after a refresh: ascending by PID key, a permutation
   * of the snapshot, and stable among rows with equal keys.
   */
  function SortByPid(snapshot: seq<Row>): (r: seq<Row>)
    ensures SortedBy(r, PidOrder)
    ensures multiset(r) == multiset(snapshot)
    ensures forall k :: Run(r, PidOrder, k) == Run(snapshot, PidOrder, k)
  {
    SortByFacts(snapshot, PidOrder);
    forall k ensures Run(SortBy(snapshot, PidOrder), PidOrder, k) == Run(snapshot, PidOrder, k) {
      SortByStable(snapshot, PidOrder, k);
    }
    SortBy(snapshot, PidOrder)
  }
}

=== FILE: properties.dfy ===
/**
 * Properties of the session controller that relate several transitions or
 * hold of every key press.
 */
module TopProperties {
  import opened Options
  import opened Text
  import opened Rows
  import opened PidSort
  import opened RowFilter
  import Cursor
  import opened Top

  /** One key press together with the snapshot a refresh would read at that moment. */
  datatype Event = Event(key: Key, snapshot: seq<Row>)

  /** The state after a sequence of key presses, in order. */
  function Replay(app: App, events: seq<Event>): App {
    if |events| == 0 then app
    else
      var last := events[|events| - 1];
      HandleKey(Replay(app, events[..|events| - 1]), last.key, last.snapshot).app
  }

  // ---------------------------------------------------------------------
  // The invariant is kept by every transition.

  /** A snapshot without repeated PIDs is listed in strictly ascending PID order after a refresh. */
  lemma RefreshDistinctPids(app: App, snapshot: seq<Row>)
    requires DistinctKeys(snapshot, PidOrder)
    ensures StrictlySortedBy(Refresh(app, snapshot).processes, PidOrder)
  {
    var r := Refresh(app, snapshot).processes;
    StableSortOfDistinctIsStrict(snapshot, r, PidOrder);
  }

  /** In every valid state the visible list, filtered or not, is sorted by PID. */
  lemma VisibleSorted(app: App)
    requires Valid(app)
    ensures SortedBy(Visible(app), PidOrder)
  {
    if app.searchMode {
      FilterKeepsSorted(app.processes, app.searchQuery);
    }
  }

  /** After a refresh the visible list is sorted by PID, in search mode as well. */
  lemma RefreshVisibleSorted(app: App, snapshot: seq<Row>)
    ensures SortedBy(Visible(Refresh(app, snapshot)), PidOrder)
  {
    var r := Refresh(app, snapshot);
    if app.searchMode {
      FilterKeepsSorted(r.processes, app.searchQuery);
    }
  }

  lemma RefreshValid(app: App, snapshot: seq<Row>)
    requires Valid(app)
    ensures Valid(Refresh(app, snapshot))
  {
  }

  lemma UpdateFilteredValid(app: App, query: string)
    requires Valid(app) && app.searchMode
    ensures Valid(UpdateFiltered(app.(searchQuery := query)))
  {
  }

  lemma InitiateKillValid(app: App)
    requires Valid(app) && !app.showConfirmation
    ensures Valid(InitiateKill(app))
  {
  }

  lemma ConfirmKillValid(app: App, snapshot: seq<Row>)
    requires Valid(app)
    ensures Valid(ConfirmKill(app, snapshot).app)
  {
    RefreshValid(app, snapshot);
  }

  lemma MoveValid(app: App)
    requires Valid(app)
    ensures Valid(NextItem(app)) && Valid(PreviousItem(app))
  {
  }

  lemma SearchModeSwitchValid(app: App)
    requires Valid(app)
    ensures Valid(EnterSearchMode(app)) && Valid(ExitSearchMode(app))
  {
  }

  lemma SearchKeyValid(app: App, key: Key, snapshot: seq<Row>)
    requires Valid(app) && app.searchMode
    ensures Valid(HandleKey(app, key, snapshot).app)
  {
    match key {
      case Enter =>
        if !app.showConfirmation {
          InitiateKillValid(app);
        }
      case Char(c) =>
        if (c == 'y' || c == 'Y') && app.showConfirmation {
          ConfirmKillValid(app, snapshot);
        } else if !app.showConfirmation {
          UpdateFilteredValid(app, app.searchQuery + [c]);
        }
      case Backspace =>
        if !app.showConfirmation {
          UpdateFilteredValid(app, DropLast(app.searchQuery));
        }
      case Esc =>
        SearchModeSwitchValid(app);
      case Up =>
        MoveValid(app);
      case Down =>
        MoveValid(app);
      case Other =>
    }
  }

  lemma NormalCharValid(app: App, c: char, snapshot: seq<Row>)
    requires Valid(app) && !app.searchMode
    ensures Valid(HandleKey(app, Char(c), snapshot).app)
  {
    if c == 's' || c == 'S' {
      SearchModeSwitchValid(app);
    } else if c == 'y' || c == 'Y' {
      ConfirmKillValid(app, snapshot);
    } else if c == 'r' || c == 'R' {
      RefreshValid(app, snapshot);
    }
  }

  lemma NormalKeyValid(app: App, key: Key, snapshot: seq<Row>)
    requires Valid(app) && !app.searchMode
    ensures Valid(HandleKey(app, key, snapshot).app)
  {
    match key {
      case Enter =>
        if !app.showConfirmation {
          InitiateKillValid(app);
        }
      case Char(c) =>
        NormalCharValid(app, c, snapshot);
      case Up =>
        MoveValid(app);
      case Down =>
        MoveValid(app);
      case _ =>
    }
  }

  /** Every key press, whatever the snapshot, keeps the invariant. */
  lemma HandleKeyValid(app: App, key: Key, snapshot: seq<Row>)
    requires Valid(app)
    ensures Valid(HandleKey(app, key, snapshot).app)
  {
    if app.searchMode {
      SearchKeyValid(app, key, snapshot);
    } else {
      NormalKeyValid(app, key, snapshot);
    }
  }

  /** Every state reachable from the start of a session satisfies the invariant. */
  lemma {:induction false} ReachableValid(snapshot: seq<Row>, events: seq<Event>)
    ensures Valid(Replay(Init(snapshot), events))
  {
    if |events| > 0 {
      var last := events[|events| - 1];
      ReachableValid(snapshot, events[..|events| - 1]);
      HandleKeyValid(Replay(Init(snapshot), events[..|events| - 1]), last.key, last.snapshot);
    }
  }

  // ---------------------------------------------------------------------
  // The kill confirmation.

  /** The keys that answer a shown confirmation: y/Y confirm, n/N/Esc cancel. */
  predicate Answers(key: Key) {
    key in {Char('y'), Char('Y'), Char('n'), Char('N'), Esc}
  }

  /**
   * While the confirmation is shown every key other than an answer is
   * ignored, except `q` outside search mode, which still ends the session.
   */
  lemma ConfirmationConsumesKeys(app: App, key: Key, snapshot: seq<Row>)
    requires app.showConfirmation && !Answers(key)
    ensures HandleKey(app, key, snapshot)
            == if !app.searchMode && key == Char('q') then Step(app.(exit := true), None) else Step(app, None)
  {
  }

  /** An answer always ends the confirmation, without touching the search state or the exit flag. */
  lemma AnswerEndsConfirmation(app: App, key: Key, snapshot: seq<Row>)
    requires app.showConfirmation && Answers(key)
    ensures !HandleKey(app, key, snapshot).app.showConfirmation
    ensures HandleKey(app, key, snapshot).app.pidToKill.None?
    ensures HandleKey(app, key, snapshot).app.searchMode == app.searchMode
    ensures HandleKey(app, key, snapshot).app.searchQuery == app.searchQuery
    ensures key in {Char('n'), Char('N'), Esc} ==> SameView(HandleKey(app, key, snapshot).app, app)
  {
  }

  /**
   * Outside a confirmation only Enter can start one, and the pending PID
   * is then the kill target of the selected row.
   */
  lemma OnlyEnterStartsConfirmation(app: App, key: Key, snapshot: seq<Row>)
    requires Valid(app) && !app.showConfirmation
    ensures var r := HandleKey(app, key, snapshot).app;
      r.showConfirmation ==>
        && key == Enter
        && SelectedRow(app).Some?
        && r.pidToKill == KillTarget(SelectedRow(app).value)
        && r.pidToKill.Some?
  {
  }

  /** Starting a kill and cancelling it leaves the session as it was. */
  lemma InitiateThenCancel(app: App)
    requires Valid(app) && !app.showConfirmation
    ensures CancelKill(InitiateKill(app)) == app
  {
  }

  /** With the cursor on the header or nowhere, starting a kill changes nothing. */
  lemma InitiateOnHeaderIsNoop(app: App)
    requires app.cursor == None || app.cursor == Some(0)
    ensures InitiateKill(app) == app
  {
  }

  // ---------------------------------------------------------------------
  // Search mode.

  /** Entering search mode twice is the same as entering it once. */
  lemma EnterSearchModeIdempotent(app: App)
    ensures EnterSearchMode(EnterSearchMode(app)) == EnterSearchMode(app)
    ensures Visible(EnterSearchMode(app)) == app.processes
  {
  }

  /** Leaving search mode twice is the same as leaving it once. */
  lemma ExitSearchModeIdempotent(app: App)
    ensures ExitSearchMode(ExitSearchMode(app)) == ExitSearchMode(app)
  {
  }

  /** Leaving search mode right after entering it restores a valid normal-mode state. */
  lemma ExitUndoesEnter(app: App)
    requires Valid(app) && !app.searchMode
    ensures ExitSearchMode(EnterSearchMode(app)) == app.(cursor := Some(1))
  {
  }

  /**
   * In search mode without a confirmation, a character (even `q`, `y` or
   * `n`) is appended to the query, and the visible list becomes the rows
   * matching the new query.
   */
  lemma TypingExtendsQuery(app: App, c: char, snapshot: seq<Row>)
    requires app.searchMode && !app.showConfirmation
    ensures var r := HandleKey(app, Char(c), snapshot);
      && r.kill.None?
      && r.app.searchQuery == app.searchQuery + [c]
      && r.app.processes == app.processes
      && (forall x :: x in Visible(r.app) <==> x in app.processes && Matches(x, app.searchQuery + [c]))
      && IsSubsequence(Visible(r.app), app.processes)
      && r.app.cursor == ResetCursor(Visible(r.app))
  {
    var r := HandleKey(app, Char(c), snapshot);
    forall x ensures x in Visible(r.app) <==> x in app.processes && Matches(x, app.searchQuery + [c]) {
      FilterMembership(app.processes, app.searchQuery + [c], x);
    }
  }

  /** In search mode without a confirmation, Backspace drops the last query character and refilters. */
  lemma BackspaceShortensQuery(app: App, snapshot: seq<Row>)
    requires app.searchMode && !app.showConfirmation
    ensures var r := HandleKey(app, Backspace, snapshot).app;
      && (|app.searchQuery| > 0 ==> r.searchQuery + [app.searchQuery[|app.searchQuery| - 1]] == app.searchQuery)
      && (|app.searchQuery| == 0 ==> r.searchQuery == [])
      && r.filtered == KeepMatching(app.processes, r.searchQuery)
      && r.cursor == ResetCursor(r.filtered)
      && r == app.(searchQuery := r.searchQuery, filtered := r.filtered, cursor := r.cursor)
  {
  }

  /** Every row shown in search mode contains the query, ignoring case. */
  lemma VisibleRowsContainQuery(app: App, x: Row)
    requires Valid(app) && app.searchMode && x in Visible(app)
    ensures Occurs(Lower(app.searchQuery), Lower(x))
  {
    FilterMembership(app.processes, app.searchQuery, x);
    MatchesMeaning(x, app.searchQuery);
  }

  // ---------------------------------------------------------------------
  // The remaining arms of the key dispatch.

  /** Outside search mode and any confirmation, `s`/`S` enters search mode. */
  lemma SearchKeyEntersSearchMode(app: App, c: char, snapshot: seq<Row>)
    requires !app.searchMode && !app.showConfirmation && (c == 's' || c == 'S')
    ensures HandleKey(app, Char(c), snapshot) == Step(EnterSearchMode(app), None)
  {
  }

  /** Outside search mode and any confirmation, `r`/`R` refreshes from the snapshot. */
  lemma RefreshKeyRefreshes(app: App, c: char, snapshot: seq<Row>)
    requires !app.searchMode && !app.showConfirmation && (c == 'r' || c == 'R')
    ensures HandleKey(app, Char(c), snapshot) == Step(Refresh(app, snapshot), None)
  {
  }

  /** In search mode without a confirmation, Esc leaves search mode. */
  lemma EscLeavesSearchMode(app: App, snapshot: seq<Row>)
    requires app.searchMode && !app.showConfirmation
    ensures HandleKey(app, Esc, snapshot) == Step(ExitSearchMode(app), None)
  {
  }

  /** Without a confirmation, Enter starts a kill of the selected row, in either mode. */
  lemma EnterInitiatesKill(app: App, snapshot: seq<Row>)
    requires !app.showConfirmation
    ensures HandleKey(app, Enter, snapshot) == Step(InitiateKill(app), None)
  {
  }

  /** While a confirmation is shown, `y`/`Y` confirms it in either mode: the kill, then the refresh. */
  lemma ConfirmKeyConfirms(app: App, c: char, snapshot: seq<Row>)
    requires app.showConfirmation && (c == 'y' || c == 'Y')
    ensures HandleKey(app, Char(c), snapshot) == ConfirmKill(app, snapshot)
  {
  }

  /** Without a confirmation, Up moves the cursor up in either mode, whatever the list. */
  lemma UpMovesUp(app: App, snapshot: seq<Row>)
    requires !app.showConfirmation
    ensures HandleKey(app, Up, snapshot) == Step(PreviousItem(app), None)
  {
  }

  /** Without a confirmation, Down moves the cursor down in either mode, whatever the list. */
  lemma DownMovesDown(app: App, snapshot: seq<Row>)
    requires !app.showConfirmation
    ensures HandleKey(app, Down, snapshot) == Step(NextItem(app), None)
  {
  }

  /**
   * Without a confirmation, unbound keys do nothing: any other key in
   * either mode, and outside search mode every character but `q`, `s`,
   * `S`, `r` and `R` (so `y`, `Y`, `n` and `N` too).
   */
  lemma UnboundKeysIgnored(app: App, key: Key, snapshot: seq<Row>)
    requires !app.showConfirmation
    requires key == Other || (!app.searchMode && key.Char? && key.c !in {'q', 's', 'S', 'r', 'R'})
    ensures HandleKey(app, key, snapshot) == Step(app, None)
  {
  }

  /** Outside search mode and any confirmation, Esc, Backspace and other keys do nothing. */
  lemma NormalModeIgnoredKeys(app: App, key: Key, snapshot: seq<Row>)
    requires !app.searchMode && !app.showConfirmation
    requires key == Esc || key == Backspace || key == Other
    ensures HandleKey(app, key, snapshot) == Step(app, None)
  {
  }

  // ---------------------------------------------------------------------
  // Quitting.

  /** Outside search mode `q` ends the session and changes nothing else, even during a confirmation. */
  lemma QuitKey(app: App, snapshot: seq<Row>)
    requires !app.searchMode
    ensures HandleKey(app, Char('q'), snapshot) == Step(app.(exit := true), None)
  {
  }

  /** Once set, the exit flag stays set whatever keys follow. */
  lemma {:induction false} ExitIsFinal(app: App, events: seq<Event>)
    requires app.exit
    ensures Replay(app, events).exit
  {
    if |events| > 0 {
      ExitIsFinal(app, events[..|events| - 1]);
    }
  }

  // ---------------------------------------------------------------------
  // Navigation.

  /** `n` presses of the same key, each paired with the same snapshot. */
  function Presses(key: Key, snapshot: seq<Row>, n: nat): (r: seq<Event>)
    ensures |r| == n
  {
    seq(n, _ => Event(key, snapshot))
  }

  lemma {:induction false} DownPresses(app: App, snapshot: seq<Row>, n: nat)
    requires !app.showConfirmation
    ensures Replay(app, Presses(Down, snapshot, n))
            == app.(cursor := Cursor.ForwardN(app.cursor, |Visible(app)|, n))
  {
    if n > 0 {
      assert Presses(Down, snapshot, n)[..n - 1] == Presses(Down, snapshot, n - 1);
      DownPresses(app, snapshot, n - 1);
    }
  }

  /**
   * Over a non-empty visible list, pressing Down once per row (`len + 1`
   * times) returns the session to the state it started in.
   */
  lemma DownCycle(app: App, snapshot: seq<Row>)
    requires Valid(app) && !app.showConfirmation && |Visible(app)| > 0
    ensures Replay(app, Presses(Down, snapshot, |Visible(app)| + 1)) == app
  {
    DownPresses(app, snapshot, |Visible(app)| + 1);
    Cursor.ForwardCycle(app.cursor.value, |Visible(app)|);
  }

  /** Over a non-empty visible list, Up undoes Down and Down undoes Up. */
  lemma UpUndoesDown(app: App, snapshot: seq<Row>)
    requires Valid(app) && !app.showConfirmation && |Visible(app)| > 0
    ensures HandleKey(HandleKey(app, Down, snapshot).app, Up, snapshot).app == app
    ensures HandleKey(HandleKey(app, Up, snapshot).app, Down, snapshot).app == app
  {
    Cursor.BackwardUndoesForward(app.cursor.value, |Visible(app)|);
  }

  // ---------------------------------------------------------------------
  // Worked examples.

  lemma RowTenPid()
    ensures PidKey("10\ta") == 10
  {
    assert LeadingField("10\ta") == "10" by {
      TakeUntilPrefix("10\ta", "10", IsTab);
    }
    assert AllDigits("10");
    assert "10"[..1] == "1";
    assert DigitsValue("10") == DigitsValue("1") * 10 + DigitValue('0');
  }

  lemma RowTwoPid()
    ensures PidKey("2\tb") == 2
  {
    assert LeadingField("2\tb") == "2" by {
      TakeUntilPrefix("2\tb", "2", IsTab);
    }
    assert AllDigits("2");
    assert DigitsValue("2") == 2;
  }

  /** A snapshot listing PID 10 before PID 2 is shown as PID 2, then PID 10. */
  lemma RefreshOrdersByPid(app: App)
    ensures Refresh(app, ["10\ta", "2\tb"]).processes == ["2\tb", "10\ta"]
  {
    var x, y := "10\ta", "2\tb";
    RowTenPid();
    RowTwoPid();
    assert PidOrder(x) == 10 && PidOrder(y) == 2;
    assert [x, y][1..] == [y];
    assert SortBy([y], PidOrder) == Insert(y, [], PidOrder);
    assert SortBy([x, y], PidOrder) == Insert(x, [y], PidOrder);
    assert Insert(x, [], PidOrder) == [x];
    assert Insert(x, [y], PidOrder) == [y] + Insert(x, [], PidOrder);
    assert SortBy([x, y], PidOrder) == [y, x];
    assert SortByPid([x, y]) == [y, x];
  }

  /** The query `git` keeps `gitd` and `legit` and drops `init`. */
  lemma FilterGitExample()
    ensures FilterRows(["gitd", "init", "legit"], "git") == ["gitd", "legit"]
  {
    assert Matches("gitd", "git") by {
      assert Lower("gitd") == "gitd";
      assert Lower("git") == "git";
    }
    assert !Matches("init", "git") by {
      assert Lower("init") == "init";
      assert Lower("git") == "git";
      assert forall i :: !OccursAt("git", "init", i) by {
        assert "init"[0..3][0] != "git"[0];
        assert "init"[1..4][0] != "git"[0];
      }
      MatchesMeaning("init", "git");
    }
    assert Matches("legit", "git") by {
      assert Lower("legit") == "legit";
      assert Lower("git") == "git";
    }
  }
}

=== FILE: rowfilter.dfy ===
/**
 * The search filter of the process list: a row is kept when its lowercased
 * text contains the lowercased query.
 */
module RowFilter {
  import opened Text
  import opened Rows
  import opened PidSort

  /** `proc.to_lowercase().contains(&query.to_lowercase())`. */
  predicate Matches(row: Row, query: string) {
    Contains(Lower(row), Lower(query))
  }

  /** The match test means: the lowercased query is a substring of the lowercased row. */
  lemma MatchesMeaning(row: Row, query: string)
    ensures Matches(row, query) <==> Occurs(Lower(query), Lower(row))
  {
    ContainsIffOccurs(Lower(row), Lower(query));
  }

  /** The rows of `rows` that match `query`, in order (the iterator `filter`). */
  function KeepMatching(rows: seq<Row>, query: string): seq<Row> {
    if |rows| == 0 then []
    else (if Matches(rows[0], query) then [rows[0]] else []) + KeepMatching(rows[1..], query)
  }

  /**
   * The filtered list of `update_filtered_processes`: an empty query keeps
   * the whole list, any other query keeps the matching rows.
   */
  function FilterRows(rows: seq<Row>, query: string): (r: seq<Row>)
    ensures r == KeepMatching(rows, query)
  {
    if |query| == 0 then
      EmptyQueryKeepsAll(rows, query);
      rows
    else KeepMatching(rows, query)
  }

  /** The empty query matches every row, so the short cut for it changes nothing. */
  lemma {:induction false} EmptyQueryKeepsAll(rows: seq<Row>, query: string)
    requires |query| == 0
    ensures KeepMatching(rows, query) == rows
  {
    if |rows| > 0 {
      ContainsIffOccurs(Lower(rows[0]), Lower(query));
      assert OccursAt(Lower(query), Lower(rows[0]), 0);
      EmptyQueryKeepsAll(rows[1..], query);
      assert rows == [rows[0]] + rows[1..];
    }
  }

  /** The elements of `s` at the positions `mask` marks, in order. */
  function Select<T>(s: seq<T>, mask: seq<bool>): seq<T>
    requires |mask| == |s|
  {
    if |s| == 0 then []
    else (if mask[0] then [s[0]] else []) + Select(s[1..], mask[1..])
  }

  /** `a` is `b` with some elements left out and the rest kept in order. */
  ghost predicate IsSubsequence<T>(a: seq<T>, b: seq<T>) {
    exists mask: seq<bool> :: |mask| == |b| && Select(b, mask) == a
  }

  lemma {:induction false} KeepMatchingSelects(rows: seq<Row>, query: string)
    ensures Select(rows, seq(|rows|, i requires 0 <= i < |rows| => Matches(rows[i], query)))
            == KeepMatching(rows, query)
  {
    if |rows| > 0 {
      var mask := seq(|rows|, i requires 0 <= i < |rows| => Matches(rows[i], query));
      var tail := seq(|rows| - 1, i requires 0 <= i < |rows| - 1 => Matches(rows[1..][i], query));
      assert mask[1..] == tail;
      KeepMatchingSelects(rows[1..], query);
    }
  }

  /** The filtered list is an order-preserving subsequence of the full list. */
  lemma FilterIsSubsequence(rows: seq<Row>, query: string)
    ensures IsSubsequence(FilterRows(rows, query), rows)
  {
    var mask := seq(|rows|, i requires 0 <= i < |rows| => Matches(rows[i], query));
    KeepMatchingSelects(rows, query);
    assert |mask| == |rows| && Select(rows, mask) == FilterRows(rows, query);
  }

  /**
   * Each row occurs in the filtered list as often as in the full list when
   * it matches the query, and not at all otherwise.
   */
  lemma {:induction false} FilterCounts(rows: seq<Row>, query: string, x: Row)
    ensures multiset(FilterRows(rows, query))[x]
            == if Matches(x, query) then multiset(rows)[x] else 0
  {
    if |rows| > 0 {
      FilterCounts(rows[1..], query, x);
      assert rows == [rows[0]] + rows[1..];
    }
  }

  /** A row is in the filtered list exactly when it is in the full list and matches. */
  lemma FilterMembership(rows: seq<Row>, query: string, x: Row)
    ensures x in FilterRows(rows, query) <==> x in rows && Matches(x, query)
  {
    FilterCounts(rows, query, x);
  }

  lemma {:induction false} FilterKeepsBound(rows: seq<Row>, query: string, b: nat)
    requires KeysAtLeast(rows, PidOrder, b)
    ensures KeysAtLeast(KeepMatching(rows, query), PidOrder, b)
  {
    if |rows| > 0 {
      FilterKeepsBound(rows[1..], query, b);
    }
  }

  /** Filtering a list sorted by PID leaves it sorted by PID. */
  lemma {:induction false} FilterKeepsSorted(rows: seq<Row>, query: string)
    requires SortedBy(rows, PidOrder)
    ensures SortedBy(KeepMatching(rows, query), PidOrder)
  {
    if |rows| > 0 {
      FilterKeepsSorted(rows[1..], query);
      FilterKeepsBound(rows[1..], query, PidOrder(rows[0]));
      if Matches(rows[0], query) {
        ConsSorted(rows[0], KeepMatching(rows[1..], query), PidOrder);
      }
    }
  }

  /** The filter ignores case in the query. */
  lemma FilterIgnoresQueryCase(rows: seq<Row>, query: string)
    ensures KeepMatching(rows, query) == KeepMatching(rows, Lower(query))
  {
    LowerIdempotent(query);
  }
}

=== FILE: rows.dfy ===
/**
 * A process row is the tab-separated text line the process list holds
 * (`PID\tUID\tCPU\tMEM\tSTART\tNAME`). The controller reads a PID out of a
 * row in two different ways: the sort key parses the leading tab field, the
 * kill action parses the first whitespace-separated word.
 */
module Rows {
  import opened Options
  import opened Text

  type Row = string

  const U32_LIMIT: nat := 0x1_0000_0000

  /** Rust's `u32`, the type of a PID. */
  type Pid = n: nat | n < U32_LIMIT

  predicate IsDigit(c: char) {
    '0' <= c <= '9'
  }

  predicate AllDigits(s: string) {
    forall i :: 0 <= i < |s| ==> IsDigit(s[i])
  }

  function DigitValue(c: char): (d: nat)
    requires IsDigit(c)
    ensures d < 10
  {
    c as int - '0' as int
  }

  function DigitChar(d: nat): (c: char)
    requires d < 10
    ensures IsDigit(c) && DigitValue(c) == d
  {
    ('0' as int + d) as char
  }

  /** The number a string of decimal digits denotes, most significant first. */
  function DigitsValue(s: string): nat
    requires AllDigits(s)
  {
    if |s| == 0 then 0 else DigitsValue(s[..|s| - 1]) * 10 + DigitValue(s[|s| - 1])
  }

  /**
   * `s.parse::<u32>()`: an optional leading `+`, then one or more ASCII
   * digits whose value fits in 32 bits; anything else is an error.
   */
  function ParseU32(s: string): (r: Option<Pid>)
    ensures var d := Unsigned(s);
      r.Some? <==> |d| > 0 && AllDigits(d) && DigitsValue(d) < U32_LIMIT
    ensures r.Some? ==> r.value == DigitsValue(Unsigned(s))
  {
    var digits := if |s| > 0 && s[0] == '+' then s[1..] else s;
    if |digits| == 0 || !AllDigits(digits) then None
    else
      var v := DigitsValue(digits);
      if v < U32_LIMIT then Some(v) else None
  }

  /** The part of `s` that must be digits: everything after an optional leading `+`. */
  function Unsigned(s: string): string {
    if |s| > 0 && s[0] == '+' then s[1..] else s
  }

  /** `format!("{}", n)`: the shortest decimal rendering of `n`. */
  function ShowNat(n: nat): (s: string)
    ensures |s| > 0 && AllDigits(s)
    ensures n >= 10 ==> s[0] != '0'
  {
    if n < 10 then [DigitChar(n)] else ShowNat(n / 10) + [DigitChar(n % 10)]
  }

  /** Rendering a number in decimal and reading it back gives the number. */
  lemma {:induction false} ShowNatValue(n: nat)
    ensures DigitsValue(ShowNat(n)) == n
  {
    if n >= 10 {
      var s := ShowNat(n);
      assert s[..|s| - 1] == ShowNat(n / 10);
      ShowNatValue(n / 10);
    }
  }

  /** Every PID survives a round trip through its decimal rendering. */
  lemma ParseShowRoundTrip(p: Pid)
    ensures ParseU32(ShowNat(p)) == Some(p)
  {
    ShowNatValue(p);
  }

  /** The explicit `+` sign that Rust's parser accepts is ignored. */
  lemma ParsePlusSign(p: Pid)
    ensures ParseU32(['+'] + ShowNat(p)) == Some(p)
  {
    ShowNatValue(p);
    assert (['+'] + ShowNat(p))[1..] == ShowNat(p);
  }

  /**
   * The key the process list is sorted by: the leading tab-separated
   * field parsed as `u32`, and 0 when that fails.
   */
  function PidKey(row: Row): (r: Pid)
    ensures var d := Unsigned(LeadingField(row));
      r == if |d| > 0 && AllDigits(d) && DigitsValue(d) < U32_LIMIT then DigitsValue(d) else 0
  {
    ParseU32(LeadingField(row)).GetOr(0)
  }

  /**
   * The PID a kill confirmation captures for a row: its first
   * whitespace-separated word parsed as `u32`; none when the row has no
   * word or the word is not a number.
   */
  function KillTarget(row: Row): (r: Option<Pid>)
    ensures (forall i :: 0 <= i < |row| ==> IsWhitespace(row[i])) ==> r.None?
    ensures r.Some? ==> exists k, w :: FirstWordAt(row, k, w) && ParseU32(w) == r
  {
    match FirstWord(row)
    case None => None
    case Some(w) => ParseU32(w)
  }

  /** A row as the process lister writes it: the PID, a tab, the other columns. */
  function FormatRow(p: Pid, rest: string): Row {
    ShowNat(p) + ['\t'] + rest
  }

  /** On a well-formed row both readings of the PID agree and give the PID. */
  lemma FormattedRowPid(p: Pid, rest: string)
    ensures PidKey(FormatRow(p, rest)) == p
    ensures KillTarget(FormatRow(p, rest)) == Some(p)
  {
    var row := FormatRow(p, rest);
    var s := ShowNat(p);
    ParseShowRoundTrip(p);
    DigitsStopBefore(row, s, IsTab);
    DigitsStopBefore(row, s, IsWhitespace);
    assert !IsWhitespace(row[0]) by {
      assert row[0] == s[0] && IsDigit(s[0]);
    }
    assert TrimStart(row) == row;
  }

  /** A run of digits followed by a tab is exactly what `TakeUntil` returns for tab or whitespace stops. */
  lemma DigitsStopBefore(row: string, s: string, stop: char -> bool)
    requires AllDigits(s) && |s| < |row| && row[..|s|] == s && row[|s|] == '\t'
    requires stop == IsTab || stop == IsWhitespace
    ensures TakeUntil(row, stop) == s
  {
    assert forall i :: 0 <= i < |s| ==> !stop(s[i]) by {
      forall i | 0 <= i < |s| ensures !stop(s[i]) {
        assert IsDigit(s[i]);
      }
    }
    TakeUntilPrefix(row, s, stop);
  }

  /** `TakeUntil` stops exactly at the end of a stop-free prefix followed by a stop character. */
  lemma TakeUntilPrefix(s: string, p: string, stop: char -> bool)
    requires p < s && stop(s[|p|])
    requires forall i :: 0 <= i < |p| ==> !stop(p[i])
    ensures TakeUntil(s, stop) == p
  {
  }

  /**
   * The two readings differ on a row with leading blanks: the kill action
   * still finds the PID while the sort key falls back to 0.
   */
  lemma IndentedRowReadings()
    ensures PidKey(" 7\tx") == 0
    ensures KillTarget(" 7\tx") == Some(7)
  {
    IndentedRowSortKey();
    IndentedRowKillTarget();
  }

  lemma IndentedRowSortKey()
    ensures PidKey(" 7\tx") == 0
  {
    assert LeadingField(" 7\tx") == " 7" by {
      TakeUntilPrefix(" 7\tx", " 7", IsTab);
    }
    assert !IsDigit(" 7"[0]);
  }

  lemma IndentedRowKillTarget()
    ensures KillTarget(" 7\tx") == Some(7)
  {
    var row := " 7\tx";
    assert TrimStart(row) == row[1..] by {
      assert IsWhitespace(row[0]) && !IsWhitespace(row[1]);
      assert TrimStart(row[1..]) == row[1..];
    }
    assert TakeUntil(row[1..], IsWhitespace) == "7" by {
      TakeUntilPrefix(row[1..], "7", IsWhitespace);
    }
    assert DigitsValue("7") == 7;
  }
}

=== FILE: text.dfy ===
/**
 * The string operations the session controller relies on: Rust's
 * `char::is_whitespace`, an ASCII-only stand-in for `str::to_lowercase`, `str::contains`,
 * `split('\t').next()`, `split_whitespace().next()` and `String::pop`.
 */
module Text {
  import opened Options

  /** Rust's `char::is_whitespace`: the Unicode White_Space property. */
  predicate IsWhitespace(c: char) {
    var n := c as int;
    || (0x09 <= n <= 0x0D) || n == 0x20 || n == 0x85 || n == 0xA0 || n == 0x1680
    || (0x2000 <= n <= 0x200A) || n == 0x2028 || n == 0x2029 || n == 0x202F
    || n == 0x205F || n == 0x3000
  }

  predicate IsTab(c: char) {
    c == '\t'
  }

  predicate IsUpper(c: char) {
    'A' <= c <= 'Z'
  }

  /** Lowercases one character; only the ASCII letters are folded. */
  function LowerChar(c: char): (r: char)
    ensures !IsUpper(r)
    ensures IsUpper(c) ==> r as int == c as int + 32
    ensures !IsUpper(c) ==> r == c
  {
    if IsUpper(c) then (c as int + 32) as char else c
  }

  /** An ASCII-only stand-in for `str::to_lowercase`, character by character. */
  function Lower(s: string): (r: string)
    ensures |r| == |s|
    ensures forall i :: 0 <= i < |s| ==> r[i] == LowerChar(s[i])
  {
    seq(|s|, i requires 0 <= i < |s| => LowerChar(s[i]))
  }

  /** Lowercasing twice is lowercasing once. */
  lemma LowerIdempotent(s: string)
    ensures Lower(Lower(s)) == Lower(s)
  {
    assert forall i :: 0 <= i < |s| ==> LowerChar(LowerChar(s[i])) == LowerChar(s[i]);
  }

  /** `needle` sits in `hay` starting at index `i`. */
  ghost predicate OccursAt(needle: string, hay: string, i: int) {
    0 <= i && i + |needle| <= |hay| && hay[i..i + |needle|] == needle
  }

  /** `needle` is a substring of `hay` (the empty string is a substring of everything). */
  ghost predicate Occurs(needle: string, hay: string) {
    exists i :: OccursAt(needle, hay, i)
  }

  /** `hay.contains(needle)`: a naive left-to-right scan. */
  function Contains(hay: string, needle: string): bool
    decreases |hay|
  {
    if needle <= hay then true
    else if |hay| == 0 then false
    else Contains(hay[1..], needle)
  }

  /** The scan finds `needle` exactly when it occurs somewhere in `hay`. */
  lemma {:induction false} ContainsIffOccurs(hay: string, needle: string)
    ensures Contains(hay, needle) <==> Occurs(needle, hay)
    decreases |hay|
  {
    if needle <= hay {
      assert OccursAt(needle, hay, 0);
    } else if |hay| == 0 {
      assert forall i :: !OccursAt(needle, hay, i);
    } else {
      ContainsIffOccurs(hay[1..], needle);
      if Occurs(needle, hay[1..]) {
        var i :| OccursAt(needle, hay[1..], i);
        assert hay[1..][i..i + |needle|] == hay[i + 1..i + 1 + |needle|];
        assert OccursAt(needle, hay, i + 1);
      }
      if Occurs(needle, hay) {
        var i :| OccursAt(needle, hay, i);
        assert hay[..|needle|] != needle;
        assert i != 0;
        assert hay[1..][i - 1..i - 1 + |needle|] == hay[i..i + |needle|];
        assert OccursAt(needle, hay[1..], i - 1);
      }
    }
  }

  /** The longest prefix of `s` holding no character that satisfies `stop`. */
  function TakeUntil(s: string, stop: char -> bool): (r: string)
    ensures r <= s
    ensures forall i :: 0 <= i < |r| ==> !stop(r[i])
    ensures |r| < |s| ==> stop(s[|r|])
  {
    if |s| == 0 || stop(s[0]) then [] else [s[0]] + TakeUntil(s[1..], stop)
  }

  /** `s` with its leading whitespace removed (Rust's `trim_start`). */
  function TrimStart(s: string): (r: string)
    ensures |r| <= |s| && r == s[|s| - |r|..]
    ensures forall i :: 0 <= i < |s| - |r| ==> IsWhitespace(s[i])
    ensures |r| > 0 ==> !IsWhitespace(r[0])
  {
    if |s| > 0 && IsWhitespace(s[0]) then TrimStart(s[1..]) else s
  }

  /** `s.split('\t').next()`: always present, possibly empty. */
  function LeadingField(s: string): string {
    TakeUntil(s, IsTab)
  }

  /**
   * `w` is the word of `s` starting at `k`: only whitespace precedes it,
   * and it ends at the end of `s` or at a whitespace character.
   */
  ghost predicate FirstWordAt(s: string, k: int, w: string) {
    && 0 <= k && k + |w| <= |s|
    && (forall i :: 0 <= i < k ==> IsWhitespace(s[i]))
    && s[k..k + |w|] == w
    && (k + |w| == |s| || IsWhitespace(s[k + |w|]))
  }

  /** `s.split_whitespace().next()`: absent when `s` is all whitespace. */
  function FirstWord(s: string): (r: Option<string>)
    ensures r.Some? ==> |r.value| > 0
    ensures r.Some? ==> forall i :: 0 <= i < |r.value| ==> !IsWhitespace(r.value[i])
    ensures r.Some? ==> exists k :: FirstWordAt(s, k, r.value)
    ensures r.None? <==> forall i :: 0 <= i < |s| ==> IsWhitespace(s[i])
  {
    var t := TrimStart(s);
    if |t| == 0 then None
    else
      var w := TakeUntil(t, IsWhitespace);
      var k := |s| - |t|;
      assert s[k..k + |w|] == t[..|w|];
      assert k + |w| < |s| ==> s[k + |w|] == t[|w|];
      assert FirstWordAt(s, k, w);
      Some(w)
  }

  /** `String::pop`: drops the last character, if there is one. */
  function DropLast(s: string): (r: string)
    ensures |s| > 0 ==> r + [s[|s| - 1]] == s
    ensures |s| == 0 ==> r == s
  {
    if |s| == 0 then s else s[..|s| - 1]
  }
}

=== FILE: top.dfy ===
/**
 * The interactive session controller (`App` in src/top.rs): a process list,
 * a search filter, a list cursor and a two-step kill confirmation, driven by
 * key presses. Every transition is a pure function from one session state
 * to the next. The two operating-system calls are outside the model: a
 * fresh process snapshot is passed in wherever the controller would fetch
 * one, and a kill is reported as the PID handed to the kill call.
 */
module Top {
  import opened Options
  import opened Text
  import opened Rows
  import opened PidSort
  import opened RowFilter
  import Cursor

  /** The key codes the controller tells apart; every other key is `Other`. */
  datatype Key = Char(c: char) | Enter | Backspace | Esc | Up | Down | Other

  datatype App = App(
    exit: bool,
    cursor: Option<nat>,
    processes: seq<Row>,
    showConfirmation: bool,
    pidToKill: Option<Pid>,
    searchMode: bool,
    searchQuery: string,
    filtered: seq<Row>)

  /** A transition's result: the next state and the PID passed to the kill call, if any. */
  datatype Step = Step(app: App, kill: Option<Pid>)

  /** The list the cursor ranges over: the filtered list in search mode, else the full one. */
  function Visible(app: App): seq<Row> {
    if app.searchMode then app.filtered else app.processes
  }

  /** The cursor position a freshly replaced list starts at. */
  function ResetCursor(visible: seq<Row>): Option<nat> {
    if |visible| > 0 then Some(1) else None
  }

  /** Two states that agree on everything except, possibly, the kill confirmation. */
  predicate SameView(a: App, b: App) {
    && a.exit == b.exit
    && a.cursor == b.cursor
    && a.processes == b.processes
    && a.searchMode == b.searchMode
    && a.searchQuery == b.searchQuery
    && a.filtered == b.filtered
  }

  /**
   * The invariant every reachable state keeps: the list is sorted by PID,
   * the filtered list is the filter of the full list in search mode and
   * empty (with an empty query) outside it, a PID is pending exactly while
   * the confirmation is shown, and a non-empty visible list has a cursor
   * in `0..len`. The cursor may be `Some(1)` over an empty list, because
   * entering or leaving search mode selects row 1 unconditionally.
   */
  predicate Valid(app: App) {
    && SortedBy(app.processes, PidOrder)
    && (app.searchMode ==> app.filtered == FilterRows(app.processes, app.searchQuery))
    && (!app.searchMode ==> app.filtered == [] && app.searchQuery == [])
    && (app.showConfirmation <==> app.pidToKill.Some?)
    && (|Visible(app)| > 0 ==> app.cursor.Some?)
    && (app.cursor.Some? ==> app.cursor.value <= |Visible(app)| || app.cursor.value == 1)
  }

  /**
   * `update_filtered_processes`: recomputes the filtered list from the full
   * list and the query and resets the cursor.
   */
  function UpdateFiltered(app: App): (r: App)
    ensures r.filtered == KeepMatching(app.processes, app.searchQuery)
    ensures IsSubsequence(r.filtered, app.processes)
    ensures |app.searchQuery| == 0 ==> r.filtered == app.processes
    ensures r.cursor == ResetCursor(r.filtered)
    ensures r == app.(filtered := r.filtered, cursor := r.cursor)
  {
    FilterIsSubsequence(app.processes, app.searchQuery);
    var filtered := FilterRows(app.processes, app.searchQuery);
    app.(filtered := filtered, cursor := ResetCursor(filtered))
  }

  /**
   * `refresh_processes`: replaces the list with the snapshot sorted by PID,
   * refilters in search mode and resets the cursor.
   */
  function Refresh(app: App, snapshot: seq<Row>): (r: App)
    ensures SortedBy(r.processes, PidOrder)
    ensures multiset(r.processes) == multiset(snapshot)
    ensures forall k :: Run(r.processes, PidOrder, k) == Run(snapshot, PidOrder, k)
    ensures app.searchMode ==> r.filtered == KeepMatching(r.processes, app.searchQuery)
    ensures !app.searchMode ==> r.filtered == app.filtered
    ensures r.cursor == ResetCursor(Visible(r))
    ensures r == app.(processes := r.processes, filtered := r.filtered, cursor := r.cursor)
  {
    var sorted := app.(processes := SortByPid(snapshot));
    var refiltered := if sorted.searchMode then UpdateFiltered(sorted) else sorted;
    refiltered.(cursor := ResetCursor(Visible(refiltered)))
  }

  /** `App::default`: an empty session refreshed from the first snapshot. */
  function Init(snapshot: seq<Row>): (r: App)
    ensures Valid(r)
    ensures !r.exit && !r.searchMode && !r.showConfirmation
    ensures multiset(r.processes) == multiset(snapshot)
    ensures forall k :: Run(r.processes, PidOrder, k) == Run(snapshot, PidOrder, k)
    ensures r.cursor == ResetCursor(snapshot)
  {
    var empty := App(false, None, [], false, None, false, [], []);
    var app := Refresh(empty, snapshot);
    if |app.processes| > 0 then app.(cursor := Some(1)) else app
  }

  /** `next_item`: moves the cursor one row down, wrapping to the header. */
  function NextItem(app: App): (r: App)
    ensures r == app.(cursor := r.cursor)
    ensures |Visible(app)| == 0 ==> r == app
    ensures |Visible(app)| > 0 ==> r.cursor.Some? && r.cursor.value <= |Visible(app)|
    ensures |Visible(app)| > 0 && app.cursor.None? ==> r.cursor == Some(0)
  {
    app.(cursor := Cursor.Forward(app.cursor, |Visible(app)|))
  }

  /** `previous_item`: moves the cursor one row up, wrapping to the last process. */
  function PreviousItem(app: App): (r: App)
    ensures r == app.(cursor := r.cursor)
    ensures |Visible(app)| == 0 ==> r == app
    ensures |Visible(app)| > 0 && (app.cursor.None? || app.cursor.value <= |Visible(app)|)
            ==> r.cursor.Some? && r.cursor.value <= |Visible(app)|
    ensures |Visible(app)| > 0 && (app.cursor.None? || app.cursor == Some(0))
            ==> r.cursor == Some(|Visible(app)|)
  {
    app.(cursor := Cursor.Backward(app.cursor, |Visible(app)|))
  }

  /** The visible row the cursor is on; none when it is on the header or nowhere. */
  function SelectedRow(app: App): (r: Option<Row>)
    ensures r.Some? <==> app.cursor.Some? && 1 <= app.cursor.value <= |Visible(app)|
    ensures r.Some? ==> r.value in Visible(app)
    ensures r.Some? ==> r.value == Visible(app)[app.cursor.value - 1]
  {
    match app.cursor
    case None => None
    case Some(selected) =>
      var list := Visible(app);
      if selected > 0 && selected <= |list| then Some(list[selected - 1]) else None
  }

  /**
   * `initiate_kill`: when the cursor is on a process row whose first word
   * is a PID, remembers that PID and shows the confirmation; otherwise
   * nothing changes.
   */
  function InitiateKill(app: App): (r: App)
    ensures SameView(r, app)
    ensures r == app || (r.showConfirmation && r.pidToKill.Some?)
    ensures match SelectedRow(app)
      case None => r == app
      case Some(row) =>
        match KillTarget(row)
        case None => r == app
        case Some(pid) => r.showConfirmation && r.pidToKill == Some(pid)
  {
    match app.cursor
    case None => app
    case Some(selected) =>
      var list := Visible(app);
      if selected > 0 && selected <= |list| then
        assert SelectedRow(app) == Some(list[selected - 1]);
        match KillTarget(list[selected - 1])
        case None => app
        case Some(pid) => app.(pidToKill := Some(pid), showConfirmation := true)
      else app
  }

  /** `cancel_kill`: drops the pending PID and hides the confirmation. */
  function CancelKill(app: App): (r: App)
    ensures SameView(r, app)
    ensures !r.showConfirmation && r.pidToKill.None?
  {
    app.(showConfirmation := false, pidToKill := None)
  }

  /**
   * `confirm_kill`: with a PID pending, kills it (the outcome is ignored)
   * and refreshes from the snapshot; in every case the confirmation ends.
   */
  function ConfirmKill(app: App, snapshot: seq<Row>): (r: Step)
    ensures r.kill == app.pidToKill
    ensures !r.app.showConfirmation && r.app.pidToKill.None?
    ensures app.pidToKill.None? ==> SameView(r.app, app)
    ensures app.pidToKill.Some? ==> SameView(r.app, Refresh(app, snapshot))
  {
    match app.pidToKill
    case Some(pid) => Step(CancelKill(Refresh(app, snapshot)), Some(pid))
    case None => Step(CancelKill(app), None)
  }

  /** `enter_search_mode`: search mode on, empty query, the whole list shown, row 1 selected. */
  function EnterSearchMode(app: App): (r: App)
    ensures r.searchMode && r.searchQuery == []
    ensures r.filtered == FilterRows(r.processes, r.searchQuery)
    ensures r.cursor == Some(1)
    ensures r == app.(searchMode := true, searchQuery := [], filtered := r.filtered, cursor := Some(1))
  {
    app.(searchMode := true, searchQuery := [], filtered := app.processes, cursor := Some(1))
  }

  /** `exit_search_mode`: search mode off, query and filtered list cleared, row 1 selected. */
  function ExitSearchMode(app: App): (r: App)
    ensures !r.searchMode && r.searchQuery == [] && r.filtered == []
    ensures Visible(r) == app.processes
    ensures r.cursor == Some(1)
    ensures r == app.(searchMode := false, searchQuery := [], filtered := [], cursor := Some(1))
  {
    app.(searchMode := false, searchQuery := [], filtered := [], cursor := Some(1))
  }

  /** The cursor keys and Enter do nothing while the confirmation is shown. */
  function Guarded(app: App, next: App): App {
    if app.showConfirmation then app else next
  }

  /**
   * `handle_key_events`: the next state for one key press. `snapshot` is
   * what the process lister would return if the key triggers a refresh.
   */
  function HandleKey(app: App, key: Key, snapshot: seq<Row>): (r: Step)
    ensures r.app.exit == (app.exit || (!app.searchMode && key == Char('q')))
    ensures r.kill == if app.showConfirmation && key in {Char('y'), Char('Y')} then app.pidToKill else None
  {
    if app.searchMode then
      match key
      case Enter => Step(Guarded(app, InitiateKill(app)), None)
      case Char(c) =>
        if (c == 'y' || c == 'Y') && app.showConfirmation then ConfirmKill(app, snapshot)
        else if (c == 'n' || c == 'N') && app.showConfirmation then Step(CancelKill(app), None)
        else Step(Guarded(app, UpdateFiltered(app.(searchQuery := app.searchQuery + [c]))), None)
      case Backspace =>
        Step(Guarded(app, UpdateFiltered(app.(searchQuery := DropLast(app.searchQuery)))), None)
      case Esc =>
        Step(if app.showConfirmation then CancelKill(app) else ExitSearchMode(app), None)
      case Up => Step(Guarded(app, PreviousItem(app)), None)
      case Down => Step(Guarded(app, NextItem(app)), None)
      case Other => Step(app, None)
    else
      match key
      case Char(c) =>
        if c == 'q' then Step(app.(exit := true), None)
        else if c == 's' || c == 'S' then Step(Guarded(app, EnterSearchMode(app)), None)
        else if c == 'y' || c == 'Y' then
          if app.showConfirmation then ConfirmKill(app, snapshot) else Step(app, None)
        else if c == 'n' || c == 'N' then
          Step(if app.showConfirmation then CancelKill(app) else app, None)
        else if c == 'r' || c == 'R' then Step(Guarded(app, Refresh(app, snapshot)), None)
        else Step(app, None)
      case Up => Step(Guarded(app, PreviousItem(app)), None)
      case Down => Step(Guarded(app, NextItem(app)), None)
      case Enter => Step(Guarded(app, InitiateKill(app)), None)
      case Esc => Step(if app.showConfirmation then CancelKill(app) else app, None)
      case Backspace => Step(app, None)
      case Other => Step(app, None)
  }
}
